=== FILE: README.md ===
# Admin navigation regrouper — a Dafny model

This project models the custom sidebar of a Django Jazzmin admin plug-in. It
covers `custom_get_app_list` in `admin.py` and its helper `_has_permissions`.
The function takes three inputs:

- the admin's default app list: ordered groups ("apps"), each with an ordered
  list of model entries;
- the `CUSTOM_ADMIN_MENU` setting: an ordered mapping from group name to
  directives. A directive is an `"app_label.ObjectName"` string, a model class,
  or a custom-link dictionary;
- the user's `has_perm` check.

It returns a new app list. First come the custom groups, in declaration order,
each holding the authorised links and visible models its directives name.
Empty custom groups are dropped. Then come the "leftover" groups, in
default-list order, each holding every model of its app that no directive
references.

Layout:

- `options.dfy`: `Option`, used for missing dictionary keys.
- `selection.dfy`: `FilterMap`, the order-preserving "append zero or one item
  per element" loop. The four list-building loops of the function follow it:
  the directive loop (admin.py:57-82), the custom-group loop (admin.py:48-86),
  the remaining-models loop (admin.py:99-102) and the leftover-app loop
  (admin.py:97-111). The model-map loop and the referenced-set loop do not:
  they are modelled by `ToMap` and `Referenced`. It also has
  `Selects`, an independent declarative description of that loop's result.
  `FilterMapSelects` and `SelectsDetermines` show the two agree, in both
  directions.
- `permissions.dfy`: `_has_permissions`. The oracle is `string -> bool`.
- `navigation.dfy`: the data model and the function itself (`GetAppList`).
  This covers the model map, the custom groups, the referenced-key set and the
  leftover groups.
- `properties.dfy`: ordering, partition, permission gating, and a worked
  scenario.

Where the code does something other than what its name and docstring suggest,
the model follows the code:

- Leftover models are not permission-filtered. In a default app "Sales" with a
  viewable `Order` and an `Invoice` with no view or change permission, a
  "Reports" group listing `sales.Order` gives "Reports" [Order] and then
  "Sales" [Invoice]. The "Sales" group does not disappear
  (`NavigationProperties.SalesScenario`).
- References are not de-duplicated. A key listed twice in one group is shown
  twice there (`NavigationProperties.RepeatedDirectiveRepeats`). A key listed in
  two groups is shown in both (`NavigationProperties.RepeatedAcrossGroups`).
- A link whose `permissions` value is a string, such as `"x.y"`, is not an
  error. The loop walks its characters, so the link is shown iff the user has
  one of the one-character permissions `x`, `.` or `y`. The model writes such a
  link as `Link(name, url, ["x", ".", "y"])`, which behaves the same way.
- A referenced model is shown as the model-map record, not as the original
  dictionary. The record keeps name, object name, perms, admin URL and add URL,
  and adds `app_label`.
- "Appears exactly once" holds for unreferenced models by position in their
  own app's group. It does not hold by value: equal entries can repeat, and
  keys can collide because `"a.b" + "." + "c"` equals `"a" + "." + "b.c"`.
- When the model map gets two models with the same key, the later one wins
  (`Navigation.ToMapLastWins`).

## Model

| member | source | states |
|---|---|---|
| `Permissions.AnyGranted` | admin.py:123-127 | The loop returns true iff the oracle grants some listed permission. |
| `Permissions.HasPermissions` | admin.py:116-127 | An empty list is granted. Otherwise the result is true iff at least one listed permission is granted. |
| `Navigation.DirectiveKey` | admin.py:70-75 | String and model-class directives name a key. Custom links name none. |
| `Navigation.GroupLabel` | admin.py:51 | The label has the name's length, with no spaces and no upper-case ASCII letters. Each space becomes `_` and each upper-case letter is lowered (+32). Every other character is kept. |
| `Navigation.CatalogSpec` | admin.py:33-35 | The model-map scan visits exactly the (app, model) pairs of the default list, keyed `app_label.object_name`. |
| `Navigation.ToMapKeys` | admin.py:32-43 | The model map has a key iff some scanned model has that key. |
| `Navigation.ToMapLastWins` | admin.py:36-43 | Each key maps to the record of the last scanned model with that key. |
| `Navigation.Contribution` | admin.py:57-82 | A link is shown iff its permissions are empty or one is granted. It is shown as a view-only entry with `add_url` None, `custom_link` set, name defaulting to `Link` and URL to `#`. A string or class directive is shown iff its key is in the model map and that record allows view or change. It is shown as that record. |
| `Navigation.CustomGroups` | admin.py:84-86 | Every custom group kept has at least one entry. |
| `Navigation.DirectiveKeysSpec` | admin.py:91-95 | A group's referenced keys are exactly those its string and class directives name. |
| `Navigation.ReferencedSpec` | admin.py:89-95 | The referenced set holds exactly the keys named by string or class directives of any group. Custom links add nothing. |
| `Navigation.LeftoverGroups` | admin.py:104-111 | Every leftover group kept has at least one model. |
| `Navigation.GetAppList` | admin.py:22-113 | An empty configuration returns the default list unchanged. Otherwise no group of the result is empty. |
| `Selection.FilterMapSelects` | admin.py:97-102 | The loop's output is exactly the contributions of the contributing elements, in increasing source position, each taken once. |
| `Selection.SelectsDetermines` | admin.py:97-102 | Any list meeting that description is the loop's output, so the description fixes the result. |
| `NavigationProperties.GroupOrder` | admin.py:46-113 | With a non-empty configuration, the result is the non-empty custom groups in declaration order, then the non-empty leftover groups in default-list order. |
| `NavigationProperties.CustomGroupShape` | admin.py:48-82 | A custom group has the configured name, the `GroupLabel` of that name, URL `#` and module permission true. Its entries are its directives' contributions, in directive order. |
| `NavigationProperties.LeftoverGroupShape` | admin.py:97-111 | A leftover group copies the app's name and label. Its URL defaults to `#` and its module permission to true. Its models are the app's unreferenced model records, unmodified, in original order. |
| `NavigationProperties.RepeatedDirectiveRepeats` | admin.py:57-82 | A shown directive listed at two positions of a group's list, among any others, puts its entry at two positions of that group, in the same order. |
| `NavigationProperties.RepeatedAcrossGroups` | admin.py:48-86 | A shown directive listed in two configured groups makes both groups appear in the result, in declaration order, each listing its entry. |
| `NavigationProperties.ModelMapContents` | admin.py:32-43 | Every default model's key is in the model map. Each map value is the record of a default model with that key, plus its app's label. |
| `NavigationProperties.ContributionGated` | admin.py:60-82 | A contributed entry allows view or change. A model entry is a default model's record. A link entry came from an authorised link directive. |
| `NavigationProperties.CustomEntriesGated` | admin.py:57-86 | Every entry of every custom group allows view or change. Each entry is the contribution of one directive of the configured item its group was built from. If the entry is a link, that directive is a link whose permissions the oracle grants. Otherwise the entry is a default model's record. |
| `NavigationProperties.ReferencedModelGated` | admin.py:78-82 | A string or class directive naming a default model's key is shown iff that model's own perms allow view or change, and is shown with those perms. This assumes models sharing the key agree on perms. |
| `NavigationProperties.ClassReferenceIsKey` | admin.py:70-75 | A model-class directive names `app_label + "." + ClassName`. It shows the same entry as the string directive spelling that key, and it marks exactly that key as referenced. |
| `NavigationProperties.CustomGroupsFromConfig` | admin.py:48-86 | Every custom group in the result is the group built from some configured item. |
| `NavigationProperties.CustomEntriesFromDirectives` | admin.py:57-82 | Every entry of a custom group is the contribution of one of that group's directives. |
| `NavigationProperties.SinglePermissionLink` | admin.py:60 | A link requiring only `p` is shown iff the oracle grants `p`. |
| `NavigationProperties.ReferencedNeverLeftover` | admin.py:89-102 | No leftover group holds a model whose key a string or class directive references, whether or not that model was shown. |
| `NavigationProperties.RemainingUnreferenced` | admin.py:97-102 | Every model kept for an app is one of that app's models, and its key is not referenced. |
| `NavigationProperties.UnreferencedKept` | admin.py:97-111 | A default model that no directive references is in its own app's leftover group in the result, whatever its permissions. |
| `NavigationProperties.NothingReferencedKeepsAll` | admin.py:97-102 | When none of an app's models is referenced, the leftover group holds all of them. |
| `NavigationProperties.AllReferencedDropsApp` | admin.py:104 | When every model of an app is referenced, the app gets no leftover group. |
| `NavigationProperties.SalesScenario` | admin.py:22-113 | The "Sales"/"Reports" example gives "Reports" [Order record] and then "Sales" [Invoice]. |

## Left out

- Reading `CUSTOM_ADMIN_MENU` from settings and calling `original_get_app_list` are not modelled: the default list and the configuration are parameters. The `admin_site` argument is unused. The `app_label` argument only filters the default list that `original_get_app_list` returns, and the `apps` parameter stands for that filtered list.
- `request.user.has_perm` is an opaque `string -> bool` oracle. Its side effects and its exceptions are not modelled.
- apps.py: the start-up monkey-patch of `admin.site.get_app_list` is global mutable state. Only the wrapped function is modelled.
- context_processors.py, setup.py, `__init__.py` and static/jazzmin_customizations/custom.js: settings pass-through, packaging metadata and browser DOM code, with no pure behaviour to state.
- The configuration is a Python dict, so its group names are distinct. The model accepts any sequence of groups.
- Dictionary keys other than the ones listed are not represented. Those are the framework's extra model and app keys, and the `model` class reference.
- Errors the code would raise are not modelled. These are a missing app `name`, `app_label` or model `object_name` (KeyError), and `perms` being None. The model treats those fields as always present and well-typed.
- A missing `models` key on an app is modelled as an empty list. The identity path can therefore not tell "missing" from "empty".
- A link `name` or `url` is modelled as absent or present. An explicit None value is not modelled.
- A perm flag that is absent or None (`.get` returning None) is modelled as false.
- Navigation.GroupLabel: lower-cases ASCII `A`-`Z` only. Python's `str.lower` also lower-cases non-ASCII letters, and its Unicode case mapping is not modelled.

=== FILE: navigation.dfy ===
/** The admin navigation regrouper: `custom_get_app_list` in admin.py.

    The framework's default app list (groups of model entries), the ordered
    `CUSTOM_ADMIN_MENU` configuration and the user's permission oracle go in;
    a regrouped app list comes out: custom groups in declaration order, then
    the "leftover" groups holding every default model nobody referenced. */
module Navigation {
  import opened Options
  import opened Selection
  import opened Permissions

  /** The `perms` dictionary of a model entry. */
  datatype Perms = Perms(add: bool, change: bool, delete: bool, view: bool)

  /** One dictionary of an app's `models` list. `adminUrl` may be missing
      or None; `appLabel` is present only on entries taken from the model
      map; `customLink` marks the entries synthesised for custom links. */
  datatype Entry = Entry(
    name: string,
    objectName: string,
    perms: Perms,
    adminUrl: Option<string>,
    addUrl: Option<string>,
    appLabel: Option<string>,
    customLink: bool)

  /** One app (navigation group) dictionary; `appUrl` and `hasModulePerms`
      may be missing from the framework's dictionaries. */
  datatype App = App(
    name: string,
    appLabel: string,
    appUrl: Option<string>,
    hasModulePerms: Option<bool>,
    models: seq<Entry>)

  /** One item of a configured group: a `"app_label.ObjectName"` string, a
      model class (known by its app label and class name), or a custom-link
      dictionary whose missing `permissions` is the empty list. */
  datatype Directive =
    | ByKey(key: string)
    | ByModel(modelAppLabel: string, className: string)
    | Link(linkName: Option<string>, url: Option<string>, permissions: seq<string>)

  /** One `name: [directives]` item of `CUSTOM_ADMIN_MENU`, in declaration order. */
  datatype MenuGroup = MenuGroup(name: string, directives: seq<Directive>)

  type Config = seq<MenuGroup>

  /** Model map: `"app_label.ObjectName"` to the entry recorded for it. */
  type ModelMap = map<string, Entry>

  function ModelKey(appLabel: string, objectName: string): string {
    appLabel + "." + objectName
  }

  /** The key a directive references; custom links reference none. */
  function DirectiveKey(d: Directive): (k: Option<string>)
    ensures k.Some? <==> !d.Link?
  {
    match d
    case ByKey(key) => Some(key)
    case ByModel(appLabel, cls) => Some(ModelKey(appLabel, cls))
    case Link(_, _, _) => None
  }

  // ---------------------------------------------------------------------------
  // Group labels: `group_name.lower().replace(' ', '_')`, over ASCII.

  function LowerChar(c: char): char {
    if 'A' <= c <= 'Z' then (c as int + 32) as char else c
  }

  function LabelChar(c: char): char {
    if c == ' ' then '_' else LowerChar(c)
  }

  /** The `app_label` of a custom group, derived from its display name. */
  function GroupLabel(name: string): (lbl: string)
    ensures |lbl| == |name|
    ensures forall i :: 0 <= i < |lbl| ==> lbl[i] != ' ' && !('A' <= lbl[i] <= 'Z')
    ensures forall i :: 0 <= i < |name| && name[i] == ' ' ==> lbl[i] == '_'
    ensures forall i :: 0 <= i < |name| && name[i] != ' ' && !('A' <= name[i] <= 'Z') ==> lbl[i] == name[i]
    ensures forall i :: 0 <= i < |name| && 'A' <= name[i] <= 'Z' ==> lbl[i] as int == name[i] as int + 32
  {
    seq(|name|, i requires 0 <= i < |name| => LabelChar(name[i]))
  }

  // ---------------------------------------------------------------------------
  // The model map (admin.py:32-43).

  /** The record the model map keeps for `m` of the app labelled `appLabel`:
      the entry's own fields plus `app_label`. */
  function ModelInfo(m: Entry, appLabel: string): Entry {
    Entry(name := m.name, objectName := m.objectName, perms := m.perms, adminUrl := m.adminUrl,
          addUrl := m.addUrl, appLabel := Some(appLabel), customLink := false)
  }

  /** The (key, record) pairs of one app, in model order. */
  function AppCatalog(app: App): (c: seq<(string, Entry)>)
    ensures |c| == |app.models|
    ensures forall j :: 0 <= j < |c| ==>
      c[j] == (ModelKey(app.appLabel, app.models[j].objectName), ModelInfo(app.models[j], app.appLabel))
  {
    seq(|app.models|, j requires 0 <= j < |app.models| =>
      (ModelKey(app.appLabel, app.models[j].objectName), ModelInfo(app.models[j], app.appLabel)))
  }

  /** The (key, record) pairs of every model of every app, in scan order. */
  function Catalog(apps: seq<App>): seq<(string, Entry)>
    decreases |apps|
  {
    if |apps| == 0 then [] else AppCatalog(apps[0]) + Catalog(apps[1..])
  }

  /** The scan visits exactly the models of the default list. */
  lemma {:induction false} CatalogSpec(apps: seq<App>)
    ensures forall p :: p in Catalog(apps) <==> exists a, j :: a in apps && 0 <= j < |a.models| && p == AppCatalog(a)[j]
    decreases |apps|
  {
    if |apps| > 0 {
      CatalogSpec(apps[1..]);
      assert forall a :: a in apps <==> a == apps[0] || a in apps[1..];
    }
  }

  /** Dictionary built by assigning the pairs in order: a later pair for the
      same key overwrites an earlier one. */
  function ToMap(pairs: seq<(string, Entry)>): ModelMap
    decreases |pairs|
  {
    if |pairs| == 0 then map[]
    else
      var last := pairs[|pairs| - 1];
      ToMap(pairs[..|pairs| - 1])[last.0 := last.1]
  }

  /** The dictionary holds exactly the keys of the pairs. */
  lemma {:induction false} ToMapKeys(pairs: seq<(string, Entry)>)
    ensures forall k :: k in ToMap(pairs) <==> exists i :: 0 <= i < |pairs| && pairs[i].0 == k
    decreases |pairs|
  {
    if |pairs| > 0 {
      var n := |pairs| - 1;
      var init := pairs[..n];
      ToMapKeys(init);
      assert forall i :: 0 <= i < n ==> init[i] == pairs[i];
      forall k | exists i :: 0 <= i < |pairs| && pairs[i].0 == k
        ensures k in ToMap(pairs)
      {
        var i :| 0 <= i < |pairs| && pairs[i].0 == k;
        if i < n {
          assert init[i].0 == k;
        }
      }
    }
  }

  /** Each key holds the value of its last pair: later assignments win. */
  lemma {:induction false} ToMapLastWins(pairs: seq<(string, Entry)>)
    ensures forall k :: k in ToMap(pairs) ==> LastFor(pairs, k, ToMap(pairs)[k])
    decreases |pairs|
  {
    if |pairs| > 0 {
      var n := |pairs| - 1;
      var init := pairs[..n];
      var last := pairs[n];
      var prev := ToMap(init);
      ToMapLastWins(init);
      forall k | k in ToMap(pairs)
        ensures LastFor(pairs, k, ToMap(pairs)[k])
      {
        if k == last.0 {
          assert pairs[n] == (k, ToMap(pairs)[k]);
        } else {
          assert k in prev && LastFor(init, k, prev[k]);
          var i :| 0 <= i < n && init[i] == (k, prev[k]) && forall j :: i < j < n ==> init[j].0 != k;
          assert pairs[i] == init[i];
          assert forall j :: i < j < n ==> pairs[j] == init[j];
        }
      }
    }
  }

  /** `(k, v)` is the last pair for key `k` in `pairs`. */
  ghost predicate LastFor(pairs: seq<(string, Entry)>, k: string, v: Entry) {
    exists i :: 0 <= i < |pairs| && pairs[i] == (k, v) && forall j :: i < j < |pairs| ==> pairs[j].0 != k
  }

  function BuildModelMap(apps: seq<App>): ModelMap {
    ToMap(Catalog(apps))
  }

  // ---------------------------------------------------------------------------
  // Custom groups (admin.py:46-86).

  /** A model entry is shown in a custom group when its perms allow view or change. */
  predicate Visible(e: Entry) {
    e.perms.view || e.perms.change
  }

  /** What one directive appends to its group: at most one entry. */
  function Contribution(d: Directive, mm: ModelMap, hasPerm: Oracle): (r: Option<Entry>)
    ensures d.Link? ==>
      (r.Some? <==> |d.permissions| == 0 || exists i :: 0 <= i < |d.permissions| && hasPerm(d.permissions[i]))
    ensures d.Link? && r.Some? ==>
      var title := d.linkName.GetOr("Link");
      r.value == Entry(name := title, objectName := title,
                       perms := Perms(add := false, change := false, delete := false, view := true),
                       adminUrl := Some(d.url.GetOr("#")), addUrl := None, appLabel := None, customLink := true)
    ensures !d.Link? ==>
      var key := DirectiveKey(d).value;
      (r.Some? <==> key in mm && Visible(mm[key])) && (r.Some? ==> r.value == mm[key])
  {
    match d
    case Link(name, url, perms) =>
      if |perms| == 0 || HasPermissions(hasPerm, perms) then
        var title := name.GetOr("Link");
        Some(Entry(name := title, objectName := title,
                   perms := Perms(add := false, change := false, delete := false, view := true),
                   adminUrl := Some(url.GetOr("#")), addUrl := None, appLabel := None, customLink := true))
      else None
    case _ =>
      var key := DirectiveKey(d).value;
      if key in mm && Visible(mm[key]) then Some(mm[key]) else None
  }

  function ContributionOf(mm: ModelMap, hasPerm: Oracle): Directive -> Option<Entry> {
    (d: Directive) => Contribution(d, mm, hasPerm)
  }

  /** The group a configured item builds, before the non-empty test. */
  function CustomGroup(g: MenuGroup, mm: ModelMap, hasPerm: Oracle): App {
    App(g.name, GroupLabel(g.name), Some("#"), Some(true), FilterMap(g.directives, ContributionOf(mm, hasPerm)))
  }

  /** A configured group is kept only when it ended up with entries. */
  function KeptGroupOf(mm: ModelMap, hasPerm: Oracle): MenuGroup -> Option<App> {
    (g: MenuGroup) => var app := CustomGroup(g, mm, hasPerm); if |app.models| > 0 then Some(app) else None
  }

  function CustomGroups(config: Config, mm: ModelMap, hasPerm: Oracle): (r: seq<App>)
    ensures forall k :: 0 <= k < |r| ==> |r[k].models| > 0
  {
    var f := KeptGroupOf(mm, hasPerm);
    var r := FilterMap(config, f);
    assert forall k :: 0 <= k < |r| ==> |r[k].models| > 0 by {
      forall k | 0 <= k < |r| ensures |r[k].models| > 0 {
        var i := FilterMapOrigin(config, f, k);
      }
    }
    r
  }

  // ---------------------------------------------------------------------------
  // Referenced keys (admin.py:89-95).

  function DirectiveKeys(ds: seq<Directive>): set<string>
    decreases |ds|
  {
    if |ds| == 0 then {}
    else
      match DirectiveKey(ds[0])
      case Some(k) => {k} + DirectiveKeys(ds[1..])
      case None => DirectiveKeys(ds[1..])
  }

  /** The keys of a group are exactly those its string and model-class directives name. */
  lemma {:induction false} DirectiveKeysSpec(ds: seq<Directive>)
    ensures forall k :: k in DirectiveKeys(ds) <==> exists j :: 0 <= j < |ds| && DirectiveKey(ds[j]) == Some(k)
    decreases |ds|
  {
    if |ds| > 0 {
      DirectiveKeysSpec(ds[1..]);
      assert forall j :: 1 <= j < |ds| ==> ds[j] == ds[1..][j - 1];
      forall k | exists j :: 0 <= j < |ds| && DirectiveKey(ds[j]) == Some(k)
        ensures k in DirectiveKeys(ds)
      {
        var j :| 0 <= j < |ds| && DirectiveKey(ds[j]) == Some(k);
        if j > 0 {
          assert DirectiveKey(ds[1..][j - 1]) == Some(k);
        }
      }
    }
  }

  /** Every key named by a string or model-class directive of any group. */
  function Referenced(config: Config): set<string>
    decreases |config|
  {
    if |config| == 0 then {}
    else DirectiveKeys(config[0].directives) + Referenced(config[1..])
  }

  /** The referenced set holds exactly the keys some string or model-class
      directive names; custom links add nothing. */
  lemma {:induction false} ReferencedSpec(config: Config)
    ensures forall k :: k in Referenced(config) <==>
      exists i, j :: 0 <= i < |config| && 0 <= j < |config[i].directives| && DirectiveKey(config[i].directives[j]) == Some(k)
    decreases |config|
  {
    if |config| > 0 {
      ReferencedSpec(config[1..]);
      DirectiveKeysSpec(config[0].directives);
      assert forall i :: 1 <= i < |config| ==> config[i] == config[1..][i - 1];
      forall k | exists i, j :: 0 <= i < |config| && 0 <= j < |config[i].directives| && DirectiveKey(config[i].directives[j]) == Some(k)
        ensures k in Referenced(config)
      {
        var i, j :| 0 <= i < |config| && 0 <= j < |config[i].directives| && DirectiveKey(config[i].directives[j]) == Some(k);
        if i > 0 {
          assert DirectiveKey(config[1..][i - 1].directives[j]) == Some(k);
        }
      }
    }
  }

  // ---------------------------------------------------------------------------
  // Leftover groups (admin.py:97-111).

  /** A model of the app labelled `appLabel` stays in its leftover group iff unreferenced. */
  function UnreferencedOf(appLabel: string, refs: set<string>): Entry -> Option<Entry> {
    (m: Entry) => if ModelKey(appLabel, m.objectName) in refs then None else Some(m)
  }

  function Remaining(app: App, refs: set<string>): seq<Entry> {
    FilterMap(app.models, UnreferencedOf(app.appLabel, refs))
  }

  function LeftoverGroup(app: App, refs: set<string>): App {
    App(app.name, app.appLabel, Some(app.appUrl.GetOr("#")), Some(app.hasModulePerms.GetOr(true)), Remaining(app, refs))
  }

  /** An app gets a leftover group only when some of its models remain. */
  function LeftoverOf(refs: set<string>): App -> Option<App> {
    (a: App) => var g := LeftoverGroup(a, refs); if |g.models| > 0 then Some(g) else None
  }

  function LeftoverGroups(apps: seq<App>, refs: set<string>): (r: seq<App>)
    ensures forall k :: 0 <= k < |r| ==> |r[k].models| > 0
  {
    var f := LeftoverOf(refs);
    var r := FilterMap(apps, f);
    assert forall k :: 0 <= k < |r| ==> |r[k].models| > 0 by {
      forall k | 0 <= k < |r| ensures |r[k].models| > 0 {
        var i := FilterMapOrigin(apps, f, k);
      }
    }
    r
  }

  // ---------------------------------------------------------------------------
  // The whole regrouping.

  /** `custom_get_app_list`: an empty configuration returns the default list
      itself; otherwise custom groups come first, then leftover groups, and
      no group in the result is empty. */
  function GetAppList(apps: seq<App>, config: Config, hasPerm: Oracle): (r: seq<App>)
    ensures |config| == 0 ==> r == apps
    ensures |config| > 0 ==> forall k :: 0 <= k < |r| ==> |r[k].models| > 0
  {
    if |config| == 0 then apps
    else
      var mm := BuildModelMap(apps);
      CustomGroups(config, mm, hasPerm) + LeftoverGroups(apps, Referenced(config))
  }
}

=== FILE: options.dfy ===
/** A present-or-absent value: used for optional keys of the admin's
    dictionaries (`dict.get(key)` returning nothing) and for the "at most one
    entry" a placement directive contributes. */
module Options {

  datatype Option<+T> = None | Some(value: T) {

    /** The value if present, otherwise `default` (Python's `d.get(key, default)`). */
    function GetOr(default: T): T {
      match this
      case Some(v) => v
      case None => default
    }
  }
}

=== FILE: permissions.dfy ===
/** The any-of permission test used to gate custom links (`_has_permissions`).
    The user's `has_perm` is an opaque oracle from permission name to verdict. */
module Permissions {

  /** The acting user's permission check, `request.user.has_perm`. */
  type Oracle = string -> bool

  /** True iff the oracle grants at least one of `perms`, tried in order;
      stops at the first grant, false when the list runs out. */
  function AnyGranted(hasPerm: Oracle, perms: seq<string>): (ok: bool)
    ensures ok <==> exists i :: 0 <= i < |perms| && hasPerm(perms[i])
    decreases |perms|
  {
    if |perms| == 0 then false
    else if hasPerm(perms[0]) then true
    else
      assert forall i :: 1 <= i < |perms| ==> perms[i] == perms[1..][i - 1];
      AnyGranted(hasPerm, perms[1..])
  }

  /** An empty requirement is met by everyone; otherwise any one grant suffices. */
  function HasPermissions(hasPerm: Oracle, perms: seq<string>): (ok: bool)
    ensures ok <==> (|perms| == 0 || exists i :: 0 <= i < |perms| && hasPerm(perms[i]))
  {
    if |perms| == 0 then true
    else AnyGranted(hasPerm, perms)
  }
}

=== FILE: properties.dfy ===
/** Properties of the regrouped app list: layout and ordering, the partition
    of default models into referenced and leftover ones, permission gating,
    and worked scenarios. */
module NavigationProperties {
  import opened Options
  import opened Selection
  import opened Permissions
  import opened Navigation

  // ---------------------------------------------------------------------------
  // Layout and ordering

  /** With a non-empty configuration the result is the kept custom groups in
      declaration order, followed by the leftover groups in default-list order. */
  lemma GroupOrder(apps: seq<App>, config: Config, hasPerm: Oracle)
    returns (n: nat, customIdx: seq<int>, leftoverIdx: seq<int>)
    requires |config| > 0
    ensures var r := GetAppList(apps, config, hasPerm);
      && n <= |r|
      && Selects(config, KeptGroupOf(BuildModelMap(apps), hasPerm), r[..n], customIdx)
      && Selects(apps, LeftoverOf(Referenced(config)), r[n..], leftoverIdx)
  {
    var r := GetAppList(apps, config, hasPerm);
    var custom := CustomGroups(config, BuildModelMap(apps), hasPerm);
    var leftover := LeftoverGroups(apps, Referenced(config));
    assert r == custom + leftover;
    n := |custom|;
    assert r[..n] == custom && r[n..] == leftover;
    customIdx := FilterMapSelects(config, KeptGroupOf(BuildModelMap(apps), hasPerm));
    leftoverIdx := FilterMapSelects(apps, LeftoverOf(Referenced(config)));
  }

  /** A custom group is named after its configured item, labelled by
      `GroupLabel`, has `#` as URL and module permission, and lists what its
      directives contribute, in directive order. */
  lemma CustomGroupShape(g: MenuGroup, mm: ModelMap, hasPerm: Oracle) returns (idx: seq<int>)
    ensures var app := CustomGroup(g, mm, hasPerm);
      && app.name == g.name
      && app.appLabel == GroupLabel(g.name)
      && app.appUrl == Some("#")
      && app.hasModulePerms == Some(true)
      && Selects(g.directives, ContributionOf(mm, hasPerm), app.models, idx)
  {
    idx := FilterMapSelects(g.directives, ContributionOf(mm, hasPerm));
  }

  /** A leftover group copies the app's name and label, defaults its URL to
      `#` and module permission to true, and holds the app's own unreferenced
      model records in their original order. */
  lemma LeftoverGroupShape(app: App, refs: set<string>) returns (idx: seq<int>)
    ensures var g := LeftoverGroup(app, refs);
      && g.name == app.name
      && g.appLabel == app.appLabel
      && g.appUrl == Some(app.appUrl.GetOr("#"))
      && g.hasModulePerms == Some(app.hasModulePerms.GetOr(true))
      && Selects(app.models, UnreferencedOf(app.appLabel, refs), g.models, idx)
  {
    idx := FilterMapSelects(app.models, UnreferencedOf(app.appLabel, refs));
  }

  /** A directive listed twice in a group, anywhere in its list, is shown
      twice: references are not de-duplicated. */
  lemma RepeatedDirectiveRepeats(ds: seq<Directive>, mm: ModelMap, hasPerm: Oracle, i: nat, j: nat)
    returns (k: nat, l: nat)
    requires i < j < |ds| && ds[i] == ds[j]
    requires Contribution(ds[i], mm, hasPerm).Some?
    ensures var models := FilterMap(ds, ContributionOf(mm, hasPerm));
      && k < l < |models|
      && models[k] == Contribution(ds[i], mm, hasPerm).value
      && models[l] == Contribution(ds[i], mm, hasPerm).value
  {
    k, l := FilterMapTwice(ds, ContributionOf(mm, hasPerm), i, j);
  }

  /** A directive shown by two configured groups is shown in both: the result
      holds the two groups, in declaration order, each listing its entry. */
  lemma RepeatedAcrossGroups(apps: seq<App>, config: Config, hasPerm: Oracle, i: nat, j: nat, s: nat, t: nat)
    returns (p: nat, q: nat)
    requires i < j < |config|
    requires s < |config[i].directives| && t < |config[j].directives|
    requires config[i].directives[s] == config[j].directives[t]
    requires Contribution(config[i].directives[s], BuildModelMap(apps), hasPerm).Some?
    ensures var r := GetAppList(apps, config, hasPerm);
      var e := Contribution(config[i].directives[s], BuildModelMap(apps), hasPerm).value;
      && p < q < |r|
      && r[p] == CustomGroup(config[i], BuildModelMap(apps), hasPerm) && e in r[p].models
      && r[q] == CustomGroup(config[j], BuildModelMap(apps), hasPerm) && e in r[q].models
  {
    var mm := BuildModelMap(apps);
    var contrib := ContributionOf(mm, hasPerm);
    FilterMapKeeps(config[i].directives, contrib, s);
    FilterMapKeeps(config[j].directives, contrib, t);
    var kept := KeptGroupOf(mm, hasPerm);
    assert kept(config[i]).Some? && kept(config[j]).Some?;
    p, q := FilterMapTwice(config, kept, i, j);
    var custom := CustomGroups(config, mm, hasPerm);
    var leftover := LeftoverGroups(apps, Referenced(config));
    assert GetAppList(apps, config, hasPerm) == custom + leftover;
    assert (custom + leftover)[p] == custom[p] && (custom + leftover)[q] == custom[q];
  }

  // ---------------------------------------------------------------------------
  // The model map

  /** The model map holds a key iff some default model has it, and what it
      holds is that model's record with its app's label. */
  lemma ModelMapContents(apps: seq<App>)
    ensures forall i, j :: 0 <= i < |apps| && 0 <= j < |apps[i].models| ==>
      ModelKey(apps[i].appLabel, apps[i].models[j].objectName) in BuildModelMap(apps)
    ensures forall k :: k in BuildModelMap(apps) ==>
      exists a, j :: (a in apps && 0 <= j < |a.models| &&
        k == ModelKey(a.appLabel, a.models[j].objectName) &&
        BuildModelMap(apps)[k] == ModelInfo(a.models[j], a.appLabel))
  {
    var c := Catalog(apps);
    var mm := BuildModelMap(apps);
    CatalogSpec(apps);
    ToMapKeys(c);
    ToMapLastWins(c);
    forall i, j | 0 <= i < |apps| && 0 <= j < |apps[i].models|
      ensures ModelKey(apps[i].appLabel, apps[i].models[j].objectName) in mm
    {
      var p := AppCatalog(apps[i])[j];
      assert p in c;
      var t :| 0 <= t < |c| && c[t] == p;
    }
    forall k | k in mm
      ensures exists a, j :: (a in apps && 0 <= j < |a.models| &&
        k == ModelKey(a.appLabel, a.models[j].objectName) && mm[k] == ModelInfo(a.models[j], a.appLabel))
    {
      var t :| 0 <= t < |c| && c[t] == (k, mm[k]);
      assert c[t] in c;
      var a, j :| a in apps && 0 <= j < |a.models| && c[t] == AppCatalog(a)[j];
    }
  }

  // ---------------------------------------------------------------------------
  // Permission gating

  /** What a directive contributes is visible; a model entry is the
      model-map record of a default model, a link entry was authorised. */
  lemma ContributionGated(apps: seq<App>, d: Directive, hasPerm: Oracle, e: Entry)
    requires Contribution(d, BuildModelMap(apps), hasPerm) == Some(e)
    ensures Visible(e)
    ensures !e.customLink ==> exists a, j :: a in apps && 0 <= j < |a.models| && e == ModelInfo(a.models[j], a.appLabel)
    ensures e.customLink ==> d.Link? && HasPermissions(hasPerm, d.permissions)
  {
    var mm := BuildModelMap(apps);
    if !d.Link? {
      ModelMapContents(apps);
      var key := DirectiveKey(d).value;
      assert key in mm && e == mm[key];
    }
  }

  /** A model directive is gated by the referenced default model's own
      permissions: it is shown iff that model allows view or change, and then
      with that model's `perms`. Models sharing the key must agree on `perms`,
      since the model map keeps only one record per key. */
  lemma ReferencedModelGated(apps: seq<App>, i: nat, j: nat, d: Directive, hasPerm: Oracle)
    requires i < |apps| && j < |apps[i].models|
    requires forall a, t ::
      (a in apps && 0 <= t < |a.models| &&
       ModelKey(a.appLabel, a.models[t].objectName) == ModelKey(apps[i].appLabel, apps[i].models[j].objectName)) ==>
      a.models[t].perms == apps[i].models[j].perms
    requires DirectiveKey(d) == Some(ModelKey(apps[i].appLabel, apps[i].models[j].objectName))
    ensures Contribution(d, BuildModelMap(apps), hasPerm).Some? <==> Visible(apps[i].models[j])
    ensures Contribution(d, BuildModelMap(apps), hasPerm).Some? ==>
      Contribution(d, BuildModelMap(apps), hasPerm).value.perms == apps[i].models[j].perms
  {
    var mm := BuildModelMap(apps);
    var key := ModelKey(apps[i].appLabel, apps[i].models[j].objectName);
    ModelMapContents(apps);
    assert key in mm;
    var a, t :| a in apps && 0 <= t < |a.models| && key == ModelKey(a.appLabel, a.models[t].objectName) &&
      mm[key] == ModelInfo(a.models[t], a.appLabel);
  }

  /** A model-class directive names the key `app_label + "." + ClassName`: it
      behaves exactly like the string directive spelling that key, both in what
      it shows and in what it marks as referenced. */
  lemma ClassReferenceIsKey(a: string, c: string, mm: ModelMap, hasPerm: Oracle)
    ensures Contribution(ByModel(a, c), mm, hasPerm) == Contribution(ByKey(a + "." + c), mm, hasPerm)
    ensures DirectiveKeys([ByModel(a, c)]) == DirectiveKeys([ByKey(a + "." + c)]) == {a + "." + c}
  {
  }

  /** Every custom group is the group built from some configured item. */
  lemma CustomGroupsFromConfig(config: Config, mm: ModelMap, hasPerm: Oracle)
    ensures var custom := CustomGroups(config, mm, hasPerm);
      forall k :: 0 <= k < |custom| ==> exists i :: 0 <= i < |config| && custom[k] == CustomGroup(config[i], mm, hasPerm)
  {
    var custom := CustomGroups(config, mm, hasPerm);
    var kept := KeptGroupOf(mm, hasPerm);
    forall k | 0 <= k < |custom|
      ensures exists i :: 0 <= i < |config| && custom[k] == CustomGroup(config[i], mm, hasPerm)
    {
      var i := FilterMapOrigin(config, kept, k);
    }
  }

  /** Every entry of a custom group is what one of its directives contributes. */
  lemma CustomEntriesFromDirectives(g: MenuGroup, mm: ModelMap, hasPerm: Oracle)
    ensures var models := CustomGroup(g, mm, hasPerm).models;
      forall t :: 0 <= t < |models| ==> exists s :: 0 <= s < |g.directives| && Contribution(g.directives[s], mm, hasPerm) == Some(models[t])
  {
    var models := CustomGroup(g, mm, hasPerm).models;
    var contrib := ContributionOf(mm, hasPerm);
    forall t | 0 <= t < |models|
      ensures exists s :: 0 <= s < |g.directives| && Contribution(g.directives[s], mm, hasPerm) == Some(models[t])
    {
      var s := FilterMapOrigin(g.directives, contrib, t);
    }
  }

  /** Every entry of every custom group has view permission or change
      permission; a model entry there is the model-map record of a default
      model, and a link entry was authorised by the oracle. */
  lemma CustomEntriesGated(apps: seq<App>, config: Config, hasPerm: Oracle)
    ensures var custom := CustomGroups(config, BuildModelMap(apps), hasPerm);
      forall k, t :: 0 <= k < |custom| && 0 <= t < |custom[k].models| ==>
        var e := custom[k].models[t];
        && Visible(e)
        && (!e.customLink ==> (exists a, j :: a in apps && 0 <= j < |a.models| && e == ModelInfo(a.models[j], a.appLabel)))
        && (exists i, s :: 0 <= i < |config| && 0 <= s < |config[i].directives|
              && custom[k] == CustomGroup(config[i], BuildModelMap(apps), hasPerm)
              && Contribution(config[i].directives[s], BuildModelMap(apps), hasPerm) == Some(e)
              && (e.customLink ==> config[i].directives[s].Link? && HasPermissions(hasPerm, config[i].directives[s].permissions)))
  {
    var mm := BuildModelMap(apps);
    var custom := CustomGroups(config, mm, hasPerm);
    CustomGroupsFromConfig(config, mm, hasPerm);
    forall k, t | 0 <= k < |custom| && 0 <= t < |custom[k].models|
      ensures var e := custom[k].models[t];
        && Visible(e)
        && (!e.customLink ==> (exists a, j :: a in apps && 0 <= j < |a.models| && e == ModelInfo(a.models[j], a.appLabel)))
        && (exists i, s :: 0 <= i < |config| && 0 <= s < |config[i].directives|
              && custom[k] == CustomGroup(config[i], BuildModelMap(apps), hasPerm)
              && Contribution(config[i].directives[s], BuildModelMap(apps), hasPerm) == Some(e)
              && (e.customLink ==> config[i].directives[s].Link? && HasPermissions(hasPerm, config[i].directives[s].permissions)))
    {
      var e := custom[k].models[t];
      var i :| 0 <= i < |config| && custom[k] == CustomGroup(config[i], mm, hasPerm);
      CustomEntriesFromDirectives(config[i], mm, hasPerm);
      var s :| 0 <= s < |config[i].directives| && Contribution(config[i].directives[s], mm, hasPerm) == Some(e);
      ContributionGated(apps, config[i].directives[s], hasPerm, e);
    }
  }

  /** A custom link whose only required permission is `p` is shown iff the
      oracle grants `p`: a corollary of the link clause of `Contribution`. */
  lemma SinglePermissionLink(name: Option<string>, url: Option<string>, p: string, mm: ModelMap, hasPerm: Oracle)
    ensures Contribution(Link(name, url, [p]), mm, hasPerm).Some? <==> hasPerm(p)
  {
  }

  // ---------------------------------------------------------------------------
  // Partition of the default models

  /** Every leftover group is the leftover group of some default app. */
  lemma LeftoverGroupOrigin(apps: seq<App>, refs: set<string>, k: nat) returns (i: nat)
    requires k < |LeftoverGroups(apps, refs)|
    ensures i < |apps| && LeftoverGroups(apps, refs)[k] == LeftoverGroup(apps[i], refs)
  {
    var leftover := LeftoverGroups(apps, refs);
    var f := LeftoverOf(refs);
    assert leftover == FilterMap(apps, f);
    i := FilterMapOrigin(apps, f, k);
    assert f(apps[i]).value == LeftoverGroup(apps[i], refs);
  }

  /** The models remaining in an app are its own, and none is referenced. */
  lemma RemainingUnreferenced(app: App, refs: set<string>)
    ensures var rem := Remaining(app, refs);
      forall t :: 0 <= t < |rem| ==> rem[t] in app.models && ModelKey(app.appLabel, rem[t].objectName) !in refs
  {
    var rem := Remaining(app, refs);
    var keep := UnreferencedOf(app.appLabel, refs);
    forall t | 0 <= t < |rem|
      ensures rem[t] in app.models && ModelKey(app.appLabel, rem[t].objectName) !in refs
    {
      var j := FilterMapOrigin(app.models, keep, t);
    }
  }

  /** No leftover group holds a model whose key some string or model-class
      directive references, whether or not a custom group shows it. */
  lemma ReferencedNeverLeftover(apps: seq<App>, config: Config)
    ensures var refs := Referenced(config);
      var leftover := LeftoverGroups(apps, refs);
      forall k, t :: 0 <= k < |leftover| && 0 <= t < |leftover[k].models| ==>
        ModelKey(leftover[k].appLabel, leftover[k].models[t].objectName) !in refs
  {
    var refs := Referenced(config);
    var leftover := LeftoverGroups(apps, refs);
    forall k, t | 0 <= k < |leftover| && 0 <= t < |leftover[k].models|
      ensures ModelKey(leftover[k].appLabel, leftover[k].models[t].objectName) !in refs
    {
      var i := LeftoverGroupOrigin(apps, refs, k);
      RemainingUnreferenced(apps[i], refs);
    }
  }

  /** An unreferenced model of an app remains in that app's leftover group. */
  lemma UnreferencedRemains(app: App, refs: set<string>, j: nat)
    requires j < |app.models| && ModelKey(app.appLabel, app.models[j].objectName) !in refs
    ensures app.models[j] in Remaining(app, refs)
  {
    var keep := UnreferencedOf(app.appLabel, refs);
    assert keep(app.models[j]) == Some(app.models[j]);
    FilterMapKeeps(app.models, keep, j);
  }

  /** An app with remaining models has its leftover group among the leftover groups. */
  lemma LeftoverGroupPresent(apps: seq<App>, refs: set<string>, i: nat) returns (k: nat)
    requires i < |apps| && |Remaining(apps[i], refs)| > 0
    ensures k < |LeftoverGroups(apps, refs)| && LeftoverGroups(apps, refs)[k] == LeftoverGroup(apps[i], refs)
  {
    var leftover := LeftoverGroups(apps, refs);
    var f := LeftoverOf(refs);
    assert leftover == FilterMap(apps, f);
    assert f(apps[i]) == Some(LeftoverGroup(apps[i], refs));
    FilterMapKeeps(apps, f, i);
    k :| 0 <= k < |leftover| && leftover[k] == LeftoverGroup(apps[i], refs);
  }

  /** With a non-empty configuration the result is the custom groups followed by the leftover groups. */
  lemma CustomThenLeftover(apps: seq<App>, config: Config, hasPerm: Oracle)
    requires |config| > 0
    ensures GetAppList(apps, config, hasPerm) ==
      CustomGroups(config, BuildModelMap(apps), hasPerm) + LeftoverGroups(apps, Referenced(config))
  {
  }

  /** A model outside `refs` is in its own app's leftover group, at position `p`. */
  lemma LeftoverContains(apps: seq<App>, refs: set<string>, i: nat, j: nat) returns (p: nat)
    requires i < |apps| && j < |apps[i].models|
    requires ModelKey(apps[i].appLabel, apps[i].models[j].objectName) !in refs
    ensures p < |LeftoverGroups(apps, refs)| && LeftoverGroups(apps, refs)[p] == LeftoverGroup(apps[i], refs)
    ensures apps[i].models[j] in LeftoverGroup(apps[i], refs).models
  {
    UnreferencedRemains(apps[i], refs, j);
    p := LeftoverGroupPresent(apps, refs, i);
  }

  /** A model no directive references is outside the referenced set. */
  lemma NotReferenced(config: Config, key: string)
    requires forall s, t :: 0 <= s < |config| && 0 <= t < |config[s].directives| ==>
      DirectiveKey(config[s].directives[t]) != Some(key)
    ensures key !in Referenced(config)
  {
    ReferencedSpec(config);
  }

  /** The leftover group at position `p` sits after all custom groups in the result. */
  lemma LeftoverPosition(apps: seq<App>, config: Config, hasPerm: Oracle, p: nat)
    requires |config| > 0
    requires p < |LeftoverGroups(apps, Referenced(config))|
    ensures |CustomGroups(config, BuildModelMap(apps), hasPerm)| + p < |GetAppList(apps, config, hasPerm)|
    ensures GetAppList(apps, config, hasPerm)[|CustomGroups(config, BuildModelMap(apps), hasPerm)| + p] ==
      LeftoverGroups(apps, Referenced(config))[p]
  {
    CustomThenLeftover(apps, config, hasPerm);
    AppendIndex(CustomGroups(config, BuildModelMap(apps), hasPerm), LeftoverGroups(apps, Referenced(config)), p);
  }

  lemma AppendIndex(a: seq<App>, b: seq<App>, p: nat)
    requires p < |b|
    ensures |a| + p < |a + b| && (a + b)[|a| + p] == b[p]
  {
  }

  /** A model whose key is outside the referenced set has its app's leftover
      group at position `k` of the result. */
  lemma OutsideReferencedKept(apps: seq<App>, config: Config, hasPerm: Oracle, i: nat, j: nat) returns (k: nat)
    requires |config| > 0
    requires i < |apps| && j < |apps[i].models|
    requires ModelKey(apps[i].appLabel, apps[i].models[j].objectName) !in Referenced(config)
    ensures k < |GetAppList(apps, config, hasPerm)|
    ensures GetAppList(apps, config, hasPerm)[k] == LeftoverGroup(apps[i], Referenced(config))
    ensures apps[i].models[j] in LeftoverGroup(apps[i], Referenced(config)).models
  {
    var refs := Referenced(config);
    var p := LeftoverContains(apps, refs, i, j);
    LeftoverPosition(apps, config, hasPerm, p);
    k := |CustomGroups(config, BuildModelMap(apps), hasPerm)| + p;
    var r := GetAppList(apps, config, hasPerm);
    assert k < |r| && r[k] == LeftoverGroups(apps, refs)[p];
  }

  /** A default model no directive references is in its own app's leftover
      group, at position `k` of the result, whatever its permissions say. */
  lemma UnreferencedKept(apps: seq<App>, config: Config, hasPerm: Oracle, i: nat, j: nat) returns (k: nat)
    requires |config| > 0
    requires i < |apps| && j < |apps[i].models|
    requires forall s, t :: 0 <= s < |config| && 0 <= t < |config[s].directives| ==>
      DirectiveKey(config[s].directives[t]) != Some(ModelKey(apps[i].appLabel, apps[i].models[j].objectName))
    ensures k < |GetAppList(apps, config, hasPerm)|
    ensures GetAppList(apps, config, hasPerm)[k] == LeftoverGroup(apps[i], Referenced(config))
    ensures apps[i].models[j] in LeftoverGroup(apps[i], Referenced(config)).models
  {
    NotReferenced(config, ModelKey(apps[i].appLabel, apps[i].models[j].objectName));
    k := OutsideReferencedKept(apps, config, hasPerm, i, j);
  }

  /** When nothing in an app is referenced, its leftover group holds all of its models. */
  lemma NothingReferencedKeepsAll(app: App, refs: set<string>)
    requires forall j :: 0 <= j < |app.models| ==> ModelKey(app.appLabel, app.models[j].objectName) !in refs
    ensures Remaining(app, refs) == app.models
  {
    var keep := UnreferencedOf(app.appLabel, refs);
    var idx := seq(|app.models|, j requires 0 <= j < |app.models| => j);
    assert forall k :: 0 <= k < |idx| ==> idx[k] == k;
    forall i | 0 <= i < |app.models| && keep(app.models[i]).Some?
      ensures i in idx
    {
      assert idx[i] == i;
    }
    assert Selects(app.models, keep, app.models, idx);
    SelectsDetermines(app.models, keep, app.models, idx);
  }

  /** When every model of an app is referenced, the app gets no leftover group. */
  lemma AllReferencedDropsApp(app: App, refs: set<string>)
    requires forall j :: 0 <= j < |app.models| ==> ModelKey(app.appLabel, app.models[j].objectName) in refs
    ensures LeftoverOf(refs)(app) == None
  {
    var rem := Remaining(app, refs);
    if |rem| > 0 {
      var j := FilterMapOrigin(app.models, UnreferencedOf(app.appLabel, refs), 0);
      assert false;
    }
  }

  // ---------------------------------------------------------------------------
  // Scenario: a "Sales" app with a viewable `Order` and an `Invoice` the user
  // may neither view nor change, and a "Reports" group listing `sales.Order`.

  const Order := Entry(name := "Order", objectName := "Order",
                       perms := Perms(add := false, change := false, delete := false, view := true),
                       adminUrl := Some("/admin/sales/order/"), addUrl := None, appLabel := None, customLink := false)
  const Invoice := Entry(name := "Invoice", objectName := "Invoice",
                         perms := Perms(add := false, change := false, delete := false, view := false),
                         adminUrl := None, addUrl := None, appLabel := None, customLink := false)
  const SalesApps := [App("Sales", "sales", Some("/admin/sales/"), Some(true), [Order, Invoice])]
  const ReportsConfig := [MenuGroup("Reports", [ByKey("sales.Order")])]

  lemma SalesModelMap()
    ensures BuildModelMap(SalesApps) ==
      map["sales.Order" := ModelInfo(Order, "sales"), "sales.Invoice" := ModelInfo(Invoice, "sales")]
  {
    var c := [("sales.Order", ModelInfo(Order, "sales")), ("sales.Invoice", ModelInfo(Invoice, "sales"))];
    assert ModelKey("sales", "Order") == "sales.Order";
    assert ModelKey("sales", "Invoice") == "sales.Invoice";
    assert AppCatalog(SalesApps[0])[0] == c[0] && AppCatalog(SalesApps[0])[1] == c[1];
    assert AppCatalog(SalesApps[0]) == c;
    assert SalesApps[1..] == [];
    assert Catalog(SalesApps) == c;
    assert c[..1][..0] == [];
    assert ToMap(c[..1]) == map["sales.Order" := ModelInfo(Order, "sales")];
  }

  lemma ReportsGroup()
    ensures CustomGroups(ReportsConfig, BuildModelMap(SalesApps), (p: string) => true) ==
      [App("Reports", "reports", Some("#"), Some(true), [ModelInfo(Order, "sales")])]
  {
    var hasPerm := (p: string) => true;
    var mm := BuildModelMap(SalesApps);
    SalesModelMap();
    var ds := ReportsConfig[0].directives;
    assert Contribution(ds[0], mm, hasPerm) == Some(ModelInfo(Order, "sales"));
    assert ds[1..] == [];
    assert FilterMap(ds, ContributionOf(mm, hasPerm)) == [ModelInfo(Order, "sales")];
    var lbl := GroupLabel("Reports");
    assert lbl == "reports" by {
      assert |lbl| == 7;
      assert lbl[0] == LabelChar('R') == 'r';
    }
    assert ReportsConfig[1..] == [];
  }

  lemma SalesLeftover()
    ensures LeftoverGroups(SalesApps, Referenced(ReportsConfig)) ==
      [App("Sales", "sales", Some("/admin/sales/"), Some(true), [Invoice])]
  {
    var refs := Referenced(ReportsConfig);
    assert refs == {"sales.Order"} by {
      ReferencedSpec(ReportsConfig);
      assert ReportsConfig[0].directives[1..] == [];
      assert ReportsConfig[1..] == [];
    }
    var models := SalesApps[0].models;
    var keep := UnreferencedOf("sales", refs);
    assert ModelKey("sales", "Invoice") == "sales.Invoice" != "sales.Order";
    assert ModelKey("sales", "Order") == "sales.Order";
    assert keep(Order) == None && keep(Invoice) == Some(Invoice);
    assert models[1..] == [Invoice] && models[1..][1..] == [];
    assert FilterMap(models[1..], keep) == [Invoice];
    assert FilterMap(models, keep) == [Invoice];
    assert SalesApps[1..] == [];
  }

  /** With every permission granted, the result is "Reports" holding the
      `Order` record, then "Sales" still holding `Invoice`: leftover models
      are not permission-filtered. */
  lemma SalesScenario()
    ensures GetAppList(SalesApps, ReportsConfig, (p: string) => true) ==
      [ App("Reports", "reports", Some("#"), Some(true), [ModelInfo(Order, "sales")]),
        App("Sales", "sales", Some("/admin/sales/"), Some(true), [Invoice]) ]
  {
    var hasPerm := (p: string) => true;
    ReportsGroup();
    SalesLeftover();
    CustomThenLeftover(SalesApps, ReportsConfig, hasPerm);
  }
}

=== FILE: selection.dfy ===
/** Order-preserving filter-and-transform over sequences.

    The four list-building loops of the navigation builder (directives,
    custom groups, remaining models, leftover apps) have the same shape: walk
    a list in order and append zero or one item per element. The model map
    and the referenced-key set are built differently (`ToMap`, `Referenced`).
    `FilterMap` is that loop; `Selects` is an independent, declarative
    description of its result (which elements contribute, in which order, and
    what they contribute), and the two lemmas below show that `FilterMap` is
    the one and only sequence meeting it. */
module Selection {
  import opened Options

  /** Walks `xs` in order and keeps the values `f` produces, dropping `None`s. */
  function FilterMap<A, B>(xs: seq<A>, f: A -> Option<B>): (r: seq<B>)
    ensures |r| <= |xs|
    decreases |xs|
  {
    if |xs| == 0 then []
    else
      var rest := FilterMap(xs[1..], f);
      match f(xs[0])
      case Some(y) => [y] + rest
      case None => rest
  }

  /** Each item of the result is what some element contributes. */
  lemma FilterMapOrigin<A, B>(xs: seq<A>, f: A -> Option<B>, k: int) returns (i: int)
    requires 0 <= k < |FilterMap(xs, f)|
    ensures 0 <= i < |xs| && f(xs[i]) == Some(FilterMap(xs, f)[k])
  {
    var idx := FilterMapSelects(xs, f);
    i := idx[k];
  }

  /** Whatever an element contributes is in the result. */
  lemma FilterMapKeeps<A, B>(xs: seq<A>, f: A -> Option<B>, i: int)
    requires 0 <= i < |xs| && f(xs[i]).Some?
    ensures f(xs[i]).value in FilterMap(xs, f)
  {
    var idx := FilterMapSelects(xs, f);
    var k :| 0 <= k < |idx| && idx[k] == i;
  }

  /** Two contributing elements, in order, land at two positions of the result
      in the same order. */
  lemma FilterMapTwice<A, B>(xs: seq<A>, f: A -> Option<B>, i: int, j: int) returns (k: int, l: int)
    requires 0 <= i < j < |xs| && f(xs[i]).Some? && f(xs[j]).Some?
    ensures 0 <= k < l < |FilterMap(xs, f)|
    ensures FilterMap(xs, f)[k] == f(xs[i]).value && FilterMap(xs, f)[l] == f(xs[j]).value
  {
    var idx := FilterMapSelects(xs, f);
    k :| 0 <= k < |idx| && idx[k] == i;
    l :| 0 <= l < |idx| && idx[l] == j;
  }

  ghost predicate Increasing(idx: seq<int>) {
    forall k, l :: 0 <= k < l < |idx| ==> idx[k] < idx[l]
  }

  /** Position `k` of `r` is what element `idx[k]` of `xs` contributes. */
  ghost predicate Produces<A, B>(xs: seq<A>, f: A -> Option<B>, r: seq<B>, idx: seq<int>) {
    && |idx| == |r|
    && forall k :: 0 <= k < |idx| ==> 0 <= idx[k] < |xs| && f(xs[idx[k]]) == Some(r[k])
  }

  /** Every element that contributes something is at a listed position. */
  ghost predicate Covers<A, B>(xs: seq<A>, f: A -> Option<B>, idx: seq<int>) {
    forall i :: 0 <= i < |xs| && f(xs[i]).Some? ==> i in idx
  }

  /** `r` is what `xs` contributes under `f`, in order: position `k` of `r`
      comes from position `idx[k]` of `xs`, positions strictly increase, and
      every element that contributes something is among them. */
  ghost predicate Selects<A, B>(xs: seq<A>, f: A -> Option<B>, r: seq<B>, idx: seq<int>) {
    Produces(xs, f, r, idx) && Increasing(idx) && Covers(xs, f, idx)
  }

  function Shift(idx: seq<int>, d: int): (s: seq<int>)
    ensures |s| == |idx|
    ensures forall k :: 0 <= k < |idx| ==> s[k] == idx[k] + d
  {
    seq(|idx|, k requires 0 <= k < |idx| => idx[k] + d)
  }

  /** Prepending an element that contributes nothing shifts every position by one. */
  lemma SelectsSkip<A, B>(x: A, tail: seq<A>, f: A -> Option<B>, r: seq<B>, idx: seq<int>)
    requires f(x).None?
    requires Selects(tail, f, r, idx)
    ensures Selects([x] + tail, f, r, Shift(idx, 1))
  {
    var xs := [x] + tail;
    var s := Shift(idx, 1);
    forall k | 0 <= k < |s|
      ensures 0 <= s[k] < |xs| && f(xs[s[k]]) == Some(r[k])
    {
      assert xs[s[k]] == tail[idx[k]];
    }
    forall i | 0 <= i < |xs| && f(xs[i]).Some?
      ensures i in s
    {
      assert i != 0;
      assert xs[i] == tail[i - 1];
      var k :| 0 <= k < |idx| && idx[k] == i - 1;
      assert s[k] == i;
    }
  }

  /** Prepending an element that contributes `y` puts `y` first, from position 0. */
  lemma SelectsKeep<A, B>(x: A, tail: seq<A>, f: A -> Option<B>, y: B, r: seq<B>, idx: seq<int>)
    requires f(x) == Some(y)
    requires Selects(tail, f, r, idx)
    ensures Selects([x] + tail, f, [y] + r, [0] + Shift(idx, 1))
  {
    KeepProduces(x, tail, f, y, r, idx);
    KeepIncreasing(tail, f, r, idx);
    KeepCovers(x, tail, f, idx);
  }

  lemma KeepProduces<A, B>(x: A, tail: seq<A>, f: A -> Option<B>, y: B, r: seq<B>, idx: seq<int>)
    requires f(x) == Some(y)
    requires Produces(tail, f, r, idx)
    ensures Produces([x] + tail, f, [y] + r, [0] + Shift(idx, 1))
  {
    var xs := [x] + tail;
    var s := [0] + Shift(idx, 1);
    var r' := [y] + r;
    forall k | 0 <= k < |s|
      ensures 0 <= s[k] < |xs| && f(xs[s[k]]) == Some(r'[k])
    {
      if k > 0 {
        assert s[k] == idx[k - 1] + 1;
        assert xs[s[k]] == tail[idx[k - 1]];
      }
    }
  }

  lemma KeepIncreasing<A, B>(tail: seq<A>, f: A -> Option<B>, r: seq<B>, idx: seq<int>)
    requires Produces(tail, f, r, idx) && Increasing(idx)
    ensures Increasing([0] + Shift(idx, 1))
  {
    var s := [0] + Shift(idx, 1);
    forall k, l | 0 <= k < l < |s|
      ensures s[k] < s[l]
    {
      assert s[l] == idx[l - 1] + 1;
      if k > 0 {
        assert s[k] == idx[k - 1] + 1;
      }
    }
  }

  lemma KeepCovers<A, B>(x: A, tail: seq<A>, f: A -> Option<B>, idx: seq<int>)
    requires Covers(tail, f, idx)
    ensures Covers([x] + tail, f, [0] + Shift(idx, 1))
  {
    var xs := [x] + tail;
    var s := [0] + Shift(idx, 1);
    forall i | 0 <= i < |xs| && f(xs[i]).Some?
      ensures i in s
    {
      if i == 0 {
        assert s[0] == 0;
      } else {
        assert xs[i] == tail[i - 1];
        var k :| 0 <= k < |idx| && idx[k] == i - 1;
        assert s[k + 1] == i;
      }
    }
  }

  /** `FilterMap` meets the declarative description. */
  lemma {:induction false} FilterMapSelects<A, B>(xs: seq<A>, f: A -> Option<B>) returns (idx: seq<int>)
    ensures Selects(xs, f, FilterMap(xs, f), idx)
    decreases |xs|
  {
    if |xs| == 0 {
      idx := [];
    } else {
      var tail := xs[1..];
      assert xs == [xs[0]] + tail;
      var rest := FilterMapSelects(tail, f);
      match f(xs[0])
      case Some(y) =>
        SelectsKeep(xs[0], tail, f, y, FilterMap(tail, f), rest);
        idx := [0] + Shift(rest, 1);
      case None =>
        SelectsSkip(xs[0], tail, f, FilterMap(tail, f), rest);
        idx := Shift(rest, 1);
    }
  }

  /** Dropping a first element that contributed `r[0]` leaves a description of the rest. */
  lemma SelectsUnkeep<A, B>(xs: seq<A>, f: A -> Option<B>, r: seq<B>, idx: seq<int>)
    requires |xs| > 0 && f(xs[0]).Some?
    requires Selects(xs, f, r, idx)
    ensures |r| > 0 && r[0] == f(xs[0]).value
    ensures Selects(xs[1..], f, r[1..], Shift(idx[1..], -1))
  {
    var tail := xs[1..];
    assert 0 in idx;
    assert forall k :: 0 < k < |idx| ==> 0 <= idx[0] < idx[k];
    assert idx[0] == 0;
    var rest := Shift(idx[1..], -1);
    forall k | 0 <= k < |rest|
      ensures 0 <= rest[k] < |tail| && f(tail[rest[k]]) == Some(r[1..][k])
    {
      assert idx[k + 1] > idx[0];
      assert tail[rest[k]] == xs[idx[k + 1]];
    }
    forall k, l | 0 <= k < l < |rest|
      ensures rest[k] < rest[l]
    {
      assert idx[k + 1] < idx[l + 1];
    }
    forall i | 0 <= i < |tail| && f(tail[i]).Some?
      ensures i in rest
    {
      assert tail[i] == xs[i + 1];
      var k :| 0 <= k < |idx| && idx[k] == i + 1;
      assert k != 0;
      assert rest[k - 1] == i;
    }
  }

  /** Dropping a first element that contributed nothing leaves a description of the rest. */
  lemma SelectsUnskip<A, B>(xs: seq<A>, f: A -> Option<B>, r: seq<B>, idx: seq<int>)
    requires |xs| > 0 && f(xs[0]).None?
    requires Selects(xs, f, r, idx)
    ensures Selects(xs[1..], f, r, Shift(idx, -1))
  {
    var tail := xs[1..];
    var rest := Shift(idx, -1);
    forall k | 0 <= k < |rest|
      ensures 0 <= rest[k] < |tail| && f(tail[rest[k]]) == Some(r[k])
    {
      assert idx[k] != 0;
      assert tail[rest[k]] == xs[idx[k]];
    }
    forall i | 0 <= i < |tail| && f(tail[i]).Some?
      ensures i in rest
    {
      assert tail[i] == xs[i + 1];
      var k :| 0 <= k < |idx| && idx[k] == i + 1;
      assert rest[k] == i;
    }
  }

  /** Any sequence meeting the description is the one `FilterMap` computes. */
  lemma {:induction false} SelectsDetermines<A, B>(xs: seq<A>, f: A -> Option<B>, r: seq<B>, idx: seq<int>)
    requires Selects(xs, f, r, idx)
    ensures r == FilterMap(xs, f)
    decreases |xs|
  {
    if |xs| == 0 {
      assert |idx| == 0;
    } else if f(xs[0]).Some? {
      SelectsUnkeep(xs, f, r, idx);
      SelectsDetermines(xs[1..], f, r[1..], Shift(idx[1..], -1));
      assert r == [r[0]] + r[1..];
    } else {
      SelectsUnskip(xs, f, r, idx);
      SelectsDetermines(xs[1..], f, r, Shift(idx, -1));
    }
  }
}
